=== FILE: README.md ===
# Bounded-memory CSV aggregation — a Dafny model

This project models the aggregation engine of the `aggregate-csv` console
command (`AggregateCsvCommand`). The command reads semicolon-separated CSV files.
Each row holds a first field and three numeric columns A, B and C. A row counts
when its first field starts with a `YYYY-MM-DD`-shaped prefix of digits (the
test checks the shape only, so `0000-99-99` passes). The command sums the columns
of those rows per first field over all files and writes one result file: a
header `date; A; B; C`, then one row per key. The key is the whole first field
(line 105), not its date part. So `1993-03-21` and `1993-03-21T10` both pass the
date test but are two keys, and they get two rows.

Memory is bounded. Rows are added into an in-memory bucket keyed by date.
When the bucket holds `LIMIT_RECORDS_IN_MEMORY` (400) distinct dates, it is
merged into the result file and cleared. A bucket that is not empty at the end
of the stream is merged as well. A merge opens a temporary file and writes the
header. If a result file exists, the merge copies its date rows into the
temporary file with the bucket added in, and then deletes the result file
(line 169). It then appends the dates the old file did not hold, and finally
renames the temporary file to the result path (line 177).

Modules, leaves first:

- `Wrappers` (`wrappers.dfy`): `Option`.
- `Dates` (`dates.dfy`): the date test `/^\d{4}-\d{2}-\d{2}/i` as a predicate. It is
  checked against a small anchored-pattern matcher that serves as the regular
  expression's meaning.
- `Rows` (`rows.dfy`): the numeric triple, one line of a CSV file, and the reader
  `readCsvFilesGenerator`. The reader concatenates the rows of the files that
  open and skips the files that do not.
- `Buckets` (`buckets.dfy`): the bucket, which is a PHP array keyed by date.
  It is modelled as a list of entries with distinct dates, kept in insertion order,
  because PHP arrays keep that order and the merge appends new dates in it.
  This module also holds the entry-level algebra the merge and the reducer rely on.
- `ResultMerger` (`merge.dfy`): `saveAggregatedData`. The merge is a pure function
  from the old result file and the bucket to the new file content. `Save` wraps it
  in a small file-system state: the result file (if any) and the outcomes of
  the coming attempts to open the temporary file.
- `Aggregator` (`aggregator.dfy`): `init` and `aggregateCsvFiles`. The reducer is
  a fold with a flush threshold and a write counter. The module states the run-level
  theorems: completeness, threshold invariance, the memory bound, and the write count.

Modelling choices:

- A file is a sequence of `Line`s. `NoRecord` stands for the `false` that the
  reader yields at end of file and for the `[null]` of a blank line. `Record` is a
  first field plus three numbers.
- The header written by the merge is `Record("date", Zero)`. Its text cells are
  never read back, because `date` fails the date test.
- Numbers are exact `real`s, so the column sums are associative and commutative.
- I/O results become parameters. An input file that cannot be opened is `None`.
  The `fopen` of the temporary file (line 153) runs at every save, so it is modelled
  per save. The file system carries `tempOpens`, the list of outcomes of the coming
  open attempts. Each save uses up one entry, and an attempt past the end of the
  list succeeds. A failed open skips the merge, so the result file is unchanged.
  The caller still counts the write and clears the bucket, and that bucket's sums
  are lost.
- The flush threshold is an `int` parameter with no precondition. The source
  compares `count >= limit` only after a date row has been added. So a limit
  of 0 or below behaves like a limit of 1. The theorems that do not need
  `limit >= 1` are stated for every limit.

The central result is `Aggregator.AggregateProducesTally`. Start from a cleared result file, with
every open of the temporary file succeeding. After any stream and any limit, the result file is the
header followed by `Tally(lines)`, or there is no file at all when no row passed
the date test. `Tally(lines)` is the bucket an unbounded run
would build. It does not depend on the limit, so in the model's exact arithmetic two
runs with different limits leave identical files (`ThresholdInvariance`). `TallyMeaning` and
`AggregationIsComplete` relate `Tally` to an independent definition:

- `DateSet`: the set of first fields of the date rows;
- `SumFor`: the column-wise sum of the rows with one first field.

## Model

| member | source | states |
|---|---|---|
| Dates.DatePrefixIsPattern | src/Command/AggregateCsvCommand.php:32 | The date test `IsDatePrefix`, which the reducer applies at line 99 and the merge at line 158, holds exactly when the anchored pattern `\d{4}-\d{2}-\d{2}` (digits, `-`, digits, `-`, digits) matches at the start of the field |
| Dates.DatePrefixIgnoresRest | src/Command/AggregateCsvCommand.php:32 | Only the first ten characters decide: a date field stays a date whatever is appended, and a field is a date iff its first ten characters are |
| Rows.ReadFiles | src/Command/AggregateCsvCommand.php:187-197 | A row is produced exactly when it belongs to some file that could be opened |
| Rows.ReadFilesOneFile | src/Command/AggregateCsvCommand.php:189-195 | A file that fails to open contributes nothing; an opened file contributes all its rows, in order, between the rows of the files before and after it |
| Rows.ReadFilesAppend | src/Command/AggregateCsvCommand.php:189 | Reading two file lists one after the other yields the rows of their concatenation, in input order |
| Buckets.Accumulate | src/Command/AggregateCsvCommand.php:105-114 | Adding a row adds its three values to its date's sums (from zero when the date is new), leaves every other date's sums unchanged, adds exactly that date to the keys and keeps keys distinct |
| Buckets.AccumulateOrder | src/Command/AggregateCsvCommand.php:105-107 | Existing dates keep their positions in the array; a new date is appended at the end, so the array grows by one exactly when the date is new |
| Buckets.UniqueCount | src/Command/AggregateCsvCommand.php:117 | With distinct keys the number of entries equals the number of distinct dates, i.e. `count()` of the array |
| Buckets.Without | src/Command/AggregateCsvCommand.php:163 | `unset` of dates removes exactly those keys and leaves the sums of all other dates unchanged |
| Buckets.AddInto | src/Command/AggregateCsvCommand.php:159-165 | Each old row keeps its date and position; a date the bucket holds gets the column-wise sum of old and bucket values, any other keeps its old values |
| Buckets.Combine | src/Command/AggregateCsvCommand.php:153-174 | Entry-level merge: keys are the union; a date in both gets the sum, a date in one keeps its value; distinct keys stay distinct; old dates come first in their order |
| Buckets.CombineIsMapSum | src/Command/AggregateCsvCommand.php:159-173 | Viewed as maps, the merge is the date-wise sum of the old result and the bucket |
| Buckets.CombineAccumulate | src/Command/AggregateCsvCommand.php:117-123 | Merging a bucket that has one more row added equals adding that row after merging, which is why the flush points do not matter |
| ResultMerger.MergeRows | src/Command/AggregateCsvCommand.php:156-168 | The copy loop writes one row per old date row, writes only date rows, and leaves in the bucket exactly its dates that the old file did not hold, with keys still distinct |
| ResultMerger.Merge | src/Command/AggregateCsvCommand.php:153-154 | The new result file always starts with the header |
| ResultMerger.MergeRowsAddsInto | src/Command/AggregateCsvCommand.php:156-168 | On an old file with distinct dates, the copy loop writes the old date rows with the bucket added in, drops every non-date row, and leaves in the bucket exactly the dates the old file did not hold |
| ResultMerger.MergeIsCombine | src/Command/AggregateCsvCommand.php:153-177 | With no old file the new file holds the bucket; otherwise it holds the entry-level merge of the old date rows and the bucket |
| ResultMerger.MergeAdditive | src/Command/AggregateCsvCommand.php:159-173 | Dates in both old file and bucket get the column-wise sum, dates in only one keep their values, no other date appears |
| ResultMerger.MergeShape | src/Command/AggregateCsvCommand.php:154-173 | The new file is one header followed only by date rows, and no date is written twice, given an old file with distinct dates |
| ResultMerger.MergeOrder | src/Command/AggregateCsvCommand.php:156-174 | The old date rows come first, in their old order; the bucket's remaining dates follow in the bucket's order |
| ResultMerger.MergeEmptyBucket | src/Command/AggregateCsvCommand.php:156-168 | Merging an empty bucket rewrites the old date rows unchanged under a fresh header |
| ResultMerger.DataEntriesOfFile | src/Command/AggregateCsvCommand.php:154-173 | A file written from date-keyed entries reads back as the same entries |
| ResultMerger.Save | src/Command/AggregateCsvCommand.php:149-179 | Each call uses up one open attempt of the temporary file. When that open fails the result file is unchanged; otherwise it is replaced by a file starting with the header |
| ResultMerger.SaveScenario | tests/AggregateCsvTest.php:19-52 | Merging `{1993-03-21: (9,21,1), 1995-03-21: (9,21,1)}` into no file and then `{1995-03-21: (0,10,2)}` gives the header, `1993-03-21 (9,21,1)` and `1995-03-21 (9,31,3)` |
| Aggregator.Init | src/Command/AggregateCsvCommand.php:79-85 | After initialisation there is no result file; nothing else changes |
| Aggregator.Flush | src/Command/AggregateCsvCommand.php:117-123 | A flush empties the bucket and counts one write whether or not the save succeeded; a failed open leaves the result file as it was, a successful one leaves a file starting with the header |
| Aggregator.Step | src/Command/AggregateCsvCommand.php:98-124 | A row failing the date test changes nothing; a date row that leaves fewer than `limit` dates in the bucket is only added (no write, file system untouched, its date now held); a date row that brings the bucket to `limit` dates flushes it (bucket emptied, one write counted); the bucket stays below the limit and keeps distinct keys |
| Aggregator.Run | src/Command/AggregateCsvCommand.php:98-125 | The row loop counts at most one write per date row, changes nothing on a stream without date rows, and keeps the bucket's keys distinct |
| Aggregator.Finish | src/Command/AggregateCsvCommand.php:126-132 | After the loop the bucket is empty; one more write is counted exactly when the bucket was not empty, and an empty bucket changes nothing |
| Aggregator.AggregateCsvFiles | src/Command/AggregateCsvCommand.php:94-133 | A run counts at most one write per date row; a run over input without date rows leaves the file system unchanged and counts no write |
| Aggregator.Execute | src/Command/AggregateCsvCommand.php:47-62 | The command clears the result and aggregates with limit 400; when every open of the temporary file succeeds it leaves the header plus the totals of all rows, or no file when no row passed the date test |
| Aggregator.TallyMeaning | src/Command/AggregateCsvCommand.php:98-115 | The unbounded bucket has distinct date keys, its keys are exactly the dates of the date rows, and each date maps to the sum of all its rows |
| Aggregator.TallyKeepsOrder | src/Command/AggregateCsvCommand.php:105-107 | Dates enter the totals in order of first appearance and never move |
| Aggregator.StepKeepsInv | src/Command/AggregateCsvCommand.php:98-124 | After each row, the result file merged with the bucket equals the unbounded totals of the rows so far |
| Aggregator.AggregateProducesTally | src/Command/AggregateCsvCommand.php:94-133 | From a cleared result, a run leaves no file when no row is a date row, and otherwise the header plus the unbounded totals, for every limit |
| Aggregator.ThresholdInvariance | src/Command/AggregateCsvCommand.php:117-132 | Runs with any two limits leave identical result files (exact arithmetic; see the floating-point line under "## Left out") |
| Aggregator.AggregationIsComplete | src/Command/AggregateCsvCommand.php:94-133 | No file iff no date row; otherwise a header, then date rows only; every input date appears in exactly one row, no other date appears, and each row carries the sum of all rows of its date |
| Aggregator.BucketStaysBelowLimit | src/Command/AggregateCsvCommand.php:117-123 | From a bucket below the limit, after any further rows the bucket still holds distinct dates, fewer than the limit |
| Aggregator.MemoryBound | src/Command/AggregateCsvCommand.php:117-123 | With a positive limit, after every prefix of the stream the bucket holds fewer than `limit` distinct dates |
| Aggregator.NoFlushBelowLimit | src/Command/AggregateCsvCommand.php:98-124 | While the dates held plus the dates still to come number fewer than the limit, the `count >= limit` test never fires: no write, the file system is untouched, and the bucket ends holding exactly those dates |
| Aggregator.OneWriteBelowLimit | src/Command/AggregateCsvCommand.php:94-133 | When the input has fewer distinct dates than the limit, the run counts exactly one write (the final flush), or none when no row passed the date test |
| Aggregator.RunWrites | src/Command/AggregateCsvCommand.php:117-132 | Writes still to come: none exactly when the bucket is empty and no date row follows; at most one per date row plus one for a non-empty bucket; exactly one per date row when the limit is at most 1 |
| Aggregator.WriteCount | src/Command/AggregateCsvCommand.php:119-130 | The counter is 0 exactly when no row is a date row, never exceeds the number of date rows, and equals it when the limit is at most 1 |
| Aggregator.UnwritableTempLosesData | src/Command/AggregateCsvCommand.php:117-132 | When every open of the temporary file fails (with an outcome listed for every save), the run leaves no result file; each counted write used up one failed open; a write is counted exactly when some row passed the date test |
| Aggregator.OneFailedOpenLosesBucket | src/Command/AggregateCsvCommand.php:117-123 | Example of an open failing at one flush only: with limit 1, rows `2020-01-01 (1,0,0)` and `2020-01-02 (2,0,0)`, and the first open failing, two writes are counted, the result is the header plus the `2020-01-02` row, and it differs from `Expected` |

## Left out

- Console plumbing: `configure` and the rest of `execute` (lines 39-74), with the missing-path message, the success report and the `microtime` timing. `Execute` models only lines 50 and 58-62: `Init`, then `AggregateCsvFiles` at limit 400 on the discovered files.
- `getAllCsv` (lines 205-228): the directory walk and its `.csv` suffix test are file-system I/O. The model takes the discovered files' contents as its input.
- CSV tokenising by `fgetcsv` and quoting. A file is an abstract sequence of lines. The model assumes a written row reads back as written. In the source a date key containing `;`, a quote or a newline would not, because the merge writes `%s` unquoted.
- Floating point. The model does not cover the `(float)` cast, the `%g` formatting, or PHP's numeric-string coercion on re-read. `%g` prints six significant digits, so the source rounds any sum with more digits at every flush. The exact sums in `AggregationIsComplete` hold for the model's real arithmetic, not for that rounding. So does `ThresholdInvariance`: the number of flushes depends on the limit, so the source's file can too. For rows 1234564.9 and 0.2 of one date, limit 1 writes `1.23456e+6` after the first row and ends at `1.23456e+6`, while limit 2 writes the sum once as `1.23457e+6`.
- Non-numeric fields and rows with other than three numeric columns. Rows are a first field plus exactly three numbers. A parse failure cannot occur: the `(float)` cast at line 114 never fails, so the model has no parse-error path.
- File-system failures beyond the temporary file: an old result file that exists but cannot be opened for reading, `unlink` or `rename` failing, and a crash between steps. A save is one state step. In the source, between the `unlink` at line 169 and the `rename` at line 177 no result file exists, so a crash there loses every sum so far.
- The `null` default of the write counter, which disables counting at lines 119 and 128. The command always passes an integer, so the model counts from 0.
- The hard-coded result path at line 27, and the comment at line 146 that calls the bucket a reference parameter. The parameter is passed by value, and the model's merge works on its own copy.
- Aggregator.MemoryBound: the bound is stated for the bucket after each prefix of the row stream, not for the moment inside a flush. During a flush the bucket holds exactly `limit` dates until it is cleared.

=== FILE: aggregator.dfy ===
/** The bounded-memory reducer of the command (`aggregateCsvFiles`) and the
    initialisation that clears the result file (`init`). Rows are folded into a
    bucket; when the bucket reaches the limit of distinct dates it is merged
    into the result file and cleared; a non-empty bucket left at the end of the
    stream is merged as well. */
module Aggregator {

  import opened Wrappers
  import opened Dates
  import opened Rows
  import opened Buckets
  import opened ResultMerger

  /** `LIMIT_RECORDS_IN_MEMORY`. */
  const LimitRecordsInMemory: int := 400

  /** The loop state: the bucket, the file system and the write counter. */
  datatype Reducer = Reducer(bucket: Bucket, fs: FileSystem, writes: nat)

  /** What a run leaves behind: the file system and the write counter. */
  datatype RunOutcome = RunOutcome(fs: FileSystem, writes: nat)

  /** `init`: the result file is deleted if it exists. */
  function Init(fs: FileSystem): (r: FileSystem)
    ensures r.result.None? && r.tempOpens == fs.tempOpens
  {
    fs.(result := None)
  }

  /** Save the bucket, count the write, clear the bucket. The write is
      counted and the bucket cleared whether or not the temporary file could
      be opened; when it could not, the result file is as before and the
      bucket's sums are gone. */
  function Flush(st: Reducer): (r: Reducer)
    ensures r.bucket == [] && r.writes == st.writes + 1
    ensures !NextOpenSucceeds(st.fs) ==> r.fs.result == st.fs.result
    ensures NextOpenSucceeds(st.fs) ==> r.fs.result.Some? && |r.fs.result.value| >= 1 && r.fs.result.value[0] == Header
  {
    Reducer([], Save(st.fs, st.bucket), st.writes + 1)
  }

  /** One row of the stream. A row that fails the date test changes nothing;
      a date row is added into the bucket, and the bucket is flushed once it
      holds `limit` dates or more. */
  function Step(st: Reducer, l: Line, limit: int): (r: Reducer)
    ensures !IsDataLine(l) ==> r == st
    ensures IsDataLine(l) && |Accumulate(st.bucket, l.first, l.values)| < limit ==>
              r.fs == st.fs && r.writes == st.writes && l.first in KeySet(r.bucket)
    ensures IsDataLine(l) && |Accumulate(st.bucket, l.first, l.values)| >= limit ==>
              r.bucket == [] && r.writes == st.writes + 1
    ensures |st.bucket| < limit ==> |r.bucket| < limit
    ensures Unique(st.bucket) ==> Unique(r.bucket)
  {
    if !IsDataLine(l) then st
    else
      var b := Accumulate(st.bucket, l.first, l.values);
      if |b| >= limit then Flush(st.(bucket := b)) else st.(bucket := b)
  }

  /** The `foreach` over the row stream. Each date row costs at most one
      write; a stream without date rows changes nothing. */
  function Run(st: Reducer, lines: seq<Line>, limit: int): (r: Reducer)
    ensures st.writes <= r.writes <= st.writes + DataCount(lines)
    ensures DataCount(lines) == 0 ==> r == st
    ensures Unique(st.bucket) ==> Unique(r.bucket)
    decreases |lines|
  {
    if lines == [] then st else Run(Step(st, lines[0], limit), lines[1..], limit)
  }

  /** After the stream: a non-empty bucket is flushed one last time, so
      nothing is left in memory and one more write is counted exactly when
      rows were left over. */
  function Finish(st: Reducer): (r: Reducer)
    ensures r.bucket == []
    ensures r.writes == st.writes + (if st.bucket == [] then 0 else 1)
    ensures st.bucket == [] ==> r == st
  {
    if |st.bucket| > 0 then Flush(st) else st
  }

  /** `aggregateCsvFiles` over the given files, with the counter starting at
      zero as the command passes it. */
  function AggregateCsvFiles(files: seq<Option<seq<Line>>>, limit: int, fs: FileSystem): (r: RunOutcome)
    ensures r.writes <= DataCount(ReadFiles(files))
    ensures DataCount(ReadFiles(files)) == 0 ==> r == RunOutcome(fs, 0)
  {
    RunWrites(Reducer([], fs, 0), ReadFiles(files), limit);
    var st := Finish(Run(Reducer([], fs, 0), ReadFiles(files), limit));
    RunOutcome(st.fs, st.writes)
  }

  /** The command's own sequence: clear the result, then aggregate with the
      configured limit. When every open of the temporary file succeeds, the
      command leaves the file of the totals of all rows. */
  function Execute(files: seq<Option<seq<Line>>>, fs: FileSystem): (r: RunOutcome)
    ensures false !in fs.tempOpens ==> r.fs.result == Expected(ReadFiles(files))
  {
    var r := AggregateCsvFiles(files, LimitRecordsInMemory, Init(fs));
    assert false !in fs.tempOpens ==> r.fs.result == Expected(ReadFiles(files)) by {
      if false !in fs.tempOpens {
        AggregateProducesTally(files, LimitRecordsInMemory, fs);
      }
    }
    r
  }

  // ----- Reference definitions -------------------------------------------------

  /** The bucket the reducer would hold if memory were unbounded: every date
      row added in, in stream order, and nothing ever flushed. */
  function Tally(lines: seq<Line>): Bucket
    decreases |lines|
  {
    if lines == [] then []
    else
      var t := Tally(lines[..|lines| - 1]);
      var l := lines[|lines| - 1];
      if IsDataLine(l) then Accumulate(t, l.first, l.values) else t
  }

  /** The column-wise sum of every date row whose first field is `d`. */
  function SumFor(lines: seq<Line>, d: string): Triple
    decreases |lines|
  {
    if lines == [] then Zero
    else
      var l := lines[|lines| - 1];
      var s := SumFor(lines[..|lines| - 1], d);
      if IsDataLine(l) && l.first == d then Add(s, l.values) else s
  }

  /** The first fields of the date rows. */
  function DateSet(lines: seq<Line>): set<string>
  {
    set i | 0 <= i < |lines| && IsDataLine(lines[i]) :: lines[i].first
  }

  /** The number of date rows. */
  function DataCount(lines: seq<Line>): nat
    decreases |lines|
  {
    if lines == [] then 0
    else (if IsDataLine(lines[0]) then 1 else 0) + DataCount(lines[1..])
  }

  /** The result file that a complete run should leave: none when no row
      passed the date test, otherwise the totals under one header. */
  function Expected(lines: seq<Line>): Option<seq<Line>>
  {
    var t := Tally(lines);
    if t == [] then None else Some(FileOf(t))
  }

  // ----- The reference totals ----------------------------------------------------

  lemma DateSetSnoc(lines: seq<Line>)
    requires lines != []
    ensures var l := lines[|lines| - 1];
            DateSet(lines) == DateSet(lines[..|lines| - 1]) + (if IsDataLine(l) then {l.first} else {})
  {
    var p := lines[..|lines| - 1];
    var l := lines[|lines| - 1];
    forall d | d in DateSet(lines)
      ensures d in DateSet(p) + (if IsDataLine(l) then {l.first} else {})
    {
      var i :| 0 <= i < |lines| && IsDataLine(lines[i]) && lines[i].first == d;
      if i < |p| {
        assert p[i] == lines[i];
      }
    }
    forall d | d in DateSet(p) ensures d in DateSet(lines) {
      var i :| 0 <= i < |p| && IsDataLine(p[i]) && p[i].first == d;
      assert lines[i] == p[i];
    }
  }

  /** The unbounded bucket holds each date of the stream once, with the sum of
      all its rows, and no other key. */
  lemma {:induction false} TallyMeaning(lines: seq<Line>)
    ensures Unique(Tally(lines)) && AllDates(Tally(lines))
    ensures KeySet(Tally(lines)) == DateSet(lines)
    ensures forall d :: Get(Tally(lines), d) == SumFor(lines, d)
    decreases |lines|
  {
    if lines != [] {
      TallyMeaning(lines[..|lines| - 1]);
      DateSetSnoc(lines);
    }
  }

  /** Dates enter the totals in order of first appearance and never move: the
      totals of any prefix of the stream are, date for date, the first rows
      of the totals of the whole stream. */
  lemma {:induction false} TallyKeepsOrder(lines: seq<Line>, n: int)
    requires 0 <= n <= |lines|
    ensures |Tally(lines[..n])| <= |Tally(lines)|
    ensures forall i :: 0 <= i < |Tally(lines[..n])| ==> Tally(lines)[i].date == Tally(lines[..n])[i].date
    decreases |lines|
  {
    if n == |lines| {
      assert lines[..n] == lines;
    } else {
      var p := lines[..|lines| - 1];
      var l := lines[|lines| - 1];
      assert p[..n] == lines[..n];
      TallyKeepsOrder(p, n);
      if IsDataLine(l) {
        AccumulateOrder(Tally(p), l.first, l.values);
      }
    }
  }

  lemma {:induction false} DataCountZero(lines: seq<Line>)
    ensures DataCount(lines) == 0 <==> DateSet(lines) == {}
    decreases |lines|
  {
    if lines != [] {
      DataCountZero(lines[1..]);
      if IsDataLine(lines[0]) {
        assert lines[0].first in DateSet(lines);
      } else if DateSet(lines) != {} {
        var d :| d in DateSet(lines);
        var i :| 0 <= i < |lines| && IsDataLine(lines[i]) && lines[i].first == d;
        assert lines[1..][i - 1] == lines[i];
      }
    }
  }

  // ----- The loop invariant ------------------------------------------------------

  /** The entries of a result file, or none when there is no file. */
  function ResultEntries(result: Option<seq<Line>>): Bucket
  {
    match result
    case None => []
    case Some(file) => DataEntries(file)
  }

  /** After the rows `done`: the result file and the bucket together hold
      exactly the unbounded totals of `done`. */
  ghost predicate Inv(st: Reducer, done: seq<Line>)
  {
    var a := ResultEntries(st.fs.result);
    && false !in st.fs.tempOpens
    && (st.fs.result.Some? ==> st.fs.result.value == FileOf(a) && a != [])
    && Unique(a) && AllDates(a)
    && Unique(st.bucket) && AllDates(st.bucket)
    && Combine(a, st.bucket) == Tally(done)
  }

  lemma FlushKeepsInv(st: Reducer, done: seq<Line>)
    requires Inv(st, done) && st.bucket != []
    ensures Inv(Flush(st), done)
    ensures Flush(st).fs.result == Some(FileOf(Tally(done))) && Tally(done) != []
  {
    var a := ResultEntries(st.fs.result);
    var t := Tally(done);
    if st.fs.result.Some? {
      DataEntriesOfFile(a);
    }
    MergeIsCombine(st.fs.result, st.bucket);
    CombineWithEmpty(st.bucket);
    assert Merge(st.fs.result, st.bucket) == FileOf(t);
    TallyMeaning(done);
    DataEntriesOfFile(t);
    CombineWithEmpty(t);
    assert st.bucket[0].date in KeySet(t);
  }

  lemma TallySnoc(done: seq<Line>, l: Line)
    ensures Tally(done + [l]) ==
              if IsDataLine(l) then Accumulate(Tally(done), l.first, l.values) else Tally(done)
  {
    assert (done + [l])[..|done|] == done;
  }

  lemma AccumulateKeepsInv(st: Reducer, done: seq<Line>, l: Line)
    requires Inv(st, done) && IsDataLine(l)
    ensures Inv(st.(bucket := Accumulate(st.bucket, l.first, l.values)), done + [l])
  {
    var a := ResultEntries(st.fs.result);
    var b := Accumulate(st.bucket, l.first, l.values);
    TallySnoc(done, l);
    CombineAccumulate(a, st.bucket, l.first, l.values);
    assert Combine(a, b) == Tally(done + [l]);
    assert AllDates(b);
  }

  lemma StepKeepsInv(st: Reducer, done: seq<Line>, l: Line, limit: int)
    requires Inv(st, done)
    ensures Inv(Step(st, l, limit), done + [l])
  {
    if IsDataLine(l) {
      var b := Accumulate(st.bucket, l.first, l.values);
      var st' := st.(bucket := b);
      AccumulateKeepsInv(st, done, l);
      if |b| >= limit {
        assert l.first in KeySet(b);
        FlushKeepsInv(st', done + [l]);
        assert Step(st, l, limit) == Flush(st');
      } else {
        assert Step(st, l, limit) == st';
      }
    } else {
      TallySnoc(done, l);
      assert Step(st, l, limit) == st;
    }
  }

  lemma SnocThenRest(done: seq<Line>, rest: seq<Line>)
    requires rest != []
    ensures (done + [rest[0]]) + rest[1..] == done + rest
  {
    assert rest == [rest[0]] + rest[1..];
  }

  lemma {:induction false} RunKeepsInv(st: Reducer, done: seq<Line>, rest: seq<Line>, limit: int)
    requires Inv(st, done)
    ensures Inv(Run(st, rest, limit), done + rest)
    decreases |rest|
  {
    if rest == [] {
      assert done + rest == done;
    } else {
      var done' := done + [rest[0]];
      assert done' + rest[1..] == done + rest by { SnocThenRest(done, rest); }
      StepKeepsInv(st, done, rest[0], limit);
      RunKeepsInv(Step(st, rest[0], limit), done', rest[1..], limit);
    }
  }

  lemma FinishResult(st: Reducer, all: seq<Line>)
    requires Inv(st, all)
    ensures Finish(st).fs.result == Expected(all)
  {
    if st.bucket != [] {
      FlushKeepsInv(st, all);
    } else {
      CombineWithEmpty(ResultEntries(st.fs.result));
    }
  }

  // ----- Theorems about a whole run ----------------------------------------------

  /** The central property: starting from a cleared result, a run leaves the
      file of the unbounded totals, whatever the limit. */
  lemma AggregateProducesTally(files: seq<Option<seq<Line>>>, limit: int, fs: FileSystem)
    requires false !in fs.tempOpens
    ensures AggregateCsvFiles(files, limit, Init(fs)).fs.result == Expected(ReadFiles(files))
  {
    var st0 := Reducer([], Init(fs), 0);
    CombineWithEmpty([]);
    assert Inv(st0, []);
    RunKeepsInv(st0, [], ReadFiles(files), limit);
    assert [] + ReadFiles(files) == ReadFiles(files);
    FinishResult(Run(st0, ReadFiles(files), limit), ReadFiles(files));
  }

  /** The limit only changes how often the file is written: two runs with
      different limits leave identical result files. */
  lemma ThresholdInvariance(files: seq<Option<seq<Line>>>, limit1: int, limit2: int, fs: FileSystem)
    requires false !in fs.tempOpens
    ensures AggregateCsvFiles(files, limit1, Init(fs)).fs.result ==
            AggregateCsvFiles(files, limit2, Init(fs)).fs.result
  {
    AggregateProducesTally(files, limit1, fs);
    AggregateProducesTally(files, limit2, fs);
  }

  /** The rows of a file written from distinct entries. */
  lemma FileOfRows(t: Bucket)
    ensures var f := FileOf(t);
            && |f| == 1 + |t| && f[0] == Header
            && forall i :: 1 <= i < |f| ==> f[i] == Record(t[i - 1].date, t[i - 1].sums)
  {
    AsLinesLength(t);
    forall i | 1 <= i < |FileOf(t)| ensures FileOf(t)[i] == Record(t[i - 1].date, t[i - 1].sums) {
      AsLinesIndex(t, i - 1);
    }
  }

  /** Each data row of a file written from date-keyed entries carries one key
      and the sums stored under it. */
  lemma BucketFileRowValues(t: Bucket)
    requires Unique(t) && AllDates(t)
    ensures forall i :: 1 <= i < |FileOf(t)| ==>
              && IsDataLine(FileOf(t)[i])
              && FileOf(t)[i].first in KeySet(t)
              && FileOf(t)[i].values == Get(t, FileOf(t)[i].first)
  {
    var f := FileOf(t);
    FileOfRows(t);
    forall i | 1 <= i < |f|
      ensures IsDataLine(f[i]) && f[i].first in KeySet(t) && f[i].values == Get(t, f[i].first)
    {
      KeySetIndex(t, t[i - 1].date);
      GetEntry(t, i - 1);
    }
  }

  /** A file written from distinct entries has no date twice and a row for
      every key. */
  lemma BucketFileRowDates(t: Bucket)
    requires Unique(t)
    ensures forall i :: 1 <= i < |FileOf(t)| ==> FileOf(t)[i].Record?
    ensures forall i, j :: 1 <= i < j < |FileOf(t)| ==> FileOf(t)[i].first != FileOf(t)[j].first
    ensures forall d :: d in KeySet(t) ==> exists i :: 1 <= i < |FileOf(t)| && FileOf(t)[i].first == d
  {
    var f := FileOf(t);
    FileOfRows(t);
    UniquePairwise(t);
    forall i, j | 1 <= i < j < |f| ensures f[i].first != f[j].first {
      assert f[i].first == t[i - 1].date && f[j].first == t[j - 1].date;
    }
    forall d | d in KeySet(t) ensures exists i :: 1 <= i < |f| && f[i].first == d {
      KeySetIndex(t, d);
      var k :| 0 <= k < |t| && t[k].date == d;
      assert f[k + 1].first == d;
    }
  }

  /** A file written from distinct date-keyed entries, read row by row: one
      row per key, each carrying the key's sums. */
  lemma BucketFileRows(t: Bucket)
    requires Unique(t) && AllDates(t)
    ensures var f := FileOf(t);
            && |f| == 1 + |KeySet(t)|
            && f[0] == Header
            && (forall i :: 1 <= i < |f| ==>
                  && IsDataLine(f[i])
                  && f[i].first in KeySet(t)
                  && f[i].values == Get(t, f[i].first))
            && (forall i, j :: 1 <= i < j < |f| ==> f[i].first != f[j].first)
            && (forall d :: d in KeySet(t) ==> exists i :: 1 <= i < |f| && f[i].first == d)
  {
    FileOfRows(t);
    UniqueCount(t);
    BucketFileRowValues(t);
    BucketFileRowDates(t);
  }

  /** Completeness, row by row: a run leaves no result file exactly when no
      row passed the date test; otherwise the file is one header followed by
      date rows, every date of the stream appears in exactly one row, no
      other date appears, and each row carries the sum of all rows of its
      date. */
  lemma AggregationIsComplete(files: seq<Option<seq<Line>>>, limit: int, fs: FileSystem)
    requires false !in fs.tempOpens
    ensures var lines := ReadFiles(files);
            var r := AggregateCsvFiles(files, limit, Init(fs)).fs.result;
            && (r.None? <==> DateSet(lines) == {})
            && (r.Some? ==>
                  && |r.value| == 1 + |DateSet(lines)|
                  && r.value[0] == Header
                  && (forall i :: 1 <= i < |r.value| ==>
                        && IsDataLine(r.value[i])
                        && r.value[i].first in DateSet(lines)
                        && r.value[i].values == SumFor(lines, r.value[i].first))
                  && (forall i, j :: 1 <= i < j < |r.value| ==> r.value[i].first != r.value[j].first)
                  && (forall d :: d in DateSet(lines) ==>
                        exists i :: 1 <= i < |r.value| && r.value[i].first == d))
  {
    var lines := ReadFiles(files);
    AggregateProducesTally(files, limit, fs);
    TallyMeaning(lines);
    assert Tally(lines) == [] <==> KeySet(Tally(lines)) == {};
    BucketFileRows(Tally(lines));
  }

  /** The memory bound: with a positive limit, after any prefix of the stream
      the bucket holds fewer than `limit` distinct dates. */
  lemma {:induction false} BucketStaysBelowLimit(st: Reducer, rest: seq<Line>, limit: int)
    requires Unique(st.bucket) && |st.bucket| < limit
    ensures Unique(Run(st, rest, limit).bucket)
    ensures |KeySet(Run(st, rest, limit).bucket)| < limit
    decreases |rest|
  {
    if rest == [] {
      UniqueCount(st.bucket);
    } else {
      BucketStaysBelowLimit(Step(st, rest[0], limit), rest[1..], limit);
    }
  }

  lemma MemoryBound(files: seq<Option<seq<Line>>>, limit: int, fs: FileSystem)
    requires limit >= 1
    ensures var lines := ReadFiles(files);
            forall n :: 0 <= n <= |lines| ==>
              |KeySet(Run(Reducer([], fs, 0), lines[..n], limit).bucket)| < limit
  {
    var lines := ReadFiles(files);
    forall n | 0 <= n <= |lines|
      ensures |KeySet(Run(Reducer([], fs, 0), lines[..n], limit).bucket)| < limit
    {
      BucketStaysBelowLimit(Reducer([], fs, 0), lines[..n], limit);
    }
  }

  /** The first fields of the date rows of `l` followed by `rest`. */
  lemma DateSetCons(lines: seq<Line>)
    requires lines != []
    ensures DateSet(lines) ==
              (if IsDataLine(lines[0]) then {lines[0].first} else {}) + DateSet(lines[1..])
  {
    var l := lines[0];
    forall d | d in DateSet(lines)
      ensures d in (if IsDataLine(l) then {l.first} else {}) + DateSet(lines[1..])
    {
      var i :| 0 <= i < |lines| && IsDataLine(lines[i]) && lines[i].first == d;
      if i > 0 {
        assert lines[1..][i - 1] == lines[i];
      }
    }
    forall d | d in DateSet(lines[1..]) ensures d in DateSet(lines) {
      var i :| 0 <= i < |lines[1..]| && IsDataLine(lines[1..][i]) && lines[1..][i].first == d;
      assert lines[i + 1] == lines[1..][i];
    }
  }

  /** A subset has no more elements than its superset. */
  lemma {:induction false} SubsetCardinality(a: set<string>, b: set<string>)
    requires a <= b
    ensures |a| <= |b|
    decreases |a|
  {
    if a != {} {
      var x :| x in a;
      SubsetCardinality(a - {x}, b - {x});
    }
  }

  /** One row while the dates held and to come number fewer than the limit:
      no flush, and the row's date moves from "to come" to "held". */
  lemma NoFlushStep(st: Reducer, rest: seq<Line>, limit: int)
    requires rest != []
    requires Unique(st.bucket) && |KeySet(st.bucket) + DateSet(rest)| < limit
    ensures var r := Step(st, rest[0], limit);
            && r.writes == st.writes && r.fs == st.fs && Unique(r.bucket)
            && KeySet(r.bucket) + DateSet(rest[1..]) == KeySet(st.bucket) + DateSet(rest)
  {
    var l := rest[0];
    var held := KeySet(st.bucket) + DateSet(rest);
    DateSetCons(rest);
    if IsDataLine(l) {
      var b := Accumulate(st.bucket, l.first, l.values);
      assert |b| < limit by {
        SubsetCardinality(KeySet(b), held);
        UniqueCount(b);
      }
    }
  }

  /** The flush cadence: while the dates held and the dates still to come
      number fewer than the limit, the test `count >= limit` never fires, so
      the rows are only added into the bucket; nothing is written and the
      file system is untouched, and the bucket ends holding exactly those
      dates. */
  lemma {:induction false} NoFlushBelowLimit(st: Reducer, rest: seq<Line>, limit: int)
    requires Unique(st.bucket) && |KeySet(st.bucket) + DateSet(rest)| < limit
    ensures var r := Run(st, rest, limit);
            && r.writes == st.writes && r.fs == st.fs
            && KeySet(r.bucket) == KeySet(st.bucket) + DateSet(rest)
    decreases |rest|
  {
    if rest == [] {
      assert DateSet(rest) == {};
    } else {
      NoFlushStep(st, rest, limit);
      NoFlushBelowLimit(Step(st, rest[0], limit), rest[1..], limit);
    }
  }

  /** Fewer distinct dates than the limit: the whole input is written once,
      by the final flush, and not at all when no row passed the date test. */
  lemma OneWriteBelowLimit(files: seq<Option<seq<Line>>>, limit: int, fs: FileSystem)
    requires |DateSet(ReadFiles(files))| < limit
    ensures AggregateCsvFiles(files, limit, fs).writes ==
              if DateSet(ReadFiles(files)) == {} then 0 else 1
  {
    var lines := ReadFiles(files);
    var st0 := Reducer([], fs, 0);
    assert KeySet(st0.bucket) + DateSet(lines) == DateSet(lines);
    NoFlushBelowLimit(st0, lines, limit);
    var r := Run(st0, lines, limit);
    assert r.bucket == [] <==> KeySet(r.bucket) == {} by {
      if r.bucket != [] {
        assert r.bucket[0].date in KeySet(r.bucket);
      }
    }
  }

  /** The write counter: each flush adds one; the final flush happens exactly
      when the bucket is not empty at the end. From any state, the writes still
      to come are at least one exactly when the bucket is not empty or a date
      row is still to come, at most one per date row plus one for the current
      bucket, and exactly one per date row when the limit is 1 or less. */
  lemma {:induction false} RunWrites(st: Reducer, rest: seq<Line>, limit: int)
    ensures var f := Finish(Run(st, rest, limit));
            && f.writes >= st.writes
            && (f.writes == st.writes <==> st.bucket == [] && DataCount(rest) == 0)
            && f.writes <= st.writes + (if st.bucket == [] then 0 else 1) + DataCount(rest)
            && (limit <= 1 && st.bucket == [] ==> f.writes == st.writes + DataCount(rest))
    decreases |rest|
  {
    if rest != [] {
      var l := rest[0];
      var st' := Step(st, l, limit);
      RunWrites(st', rest[1..], limit);
      if IsDataLine(l) {
        var b := Accumulate(st.bucket, l.first, l.values);
        assert l.first in KeySet(b);
        assert b != [];
      }
    }
  }

  lemma WriteCount(files: seq<Option<seq<Line>>>, limit: int, fs: FileSystem)
    ensures var lines := ReadFiles(files);
            var w := AggregateCsvFiles(files, limit, fs).writes;
            && (w == 0 <==> DateSet(lines) == {})
            && w <= DataCount(lines)
            && (limit <= 1 ==> w == DataCount(lines))
  {
    RunWrites(Reducer([], fs, 0), ReadFiles(files), limit);
    DataCountZero(ReadFiles(files));
  }

  /** When every attempt to open the temporary file fails, the run never
      changes the result file, and each write it counts uses up one attempt.
      The list must hold an outcome for every save the run can make. */
  lemma {:induction false} RunLosesEverything(st: Reducer, rest: seq<Line>, limit: int)
    requires true !in st.fs.tempOpens
    requires |st.fs.tempOpens| >= DataCount(rest) + (if st.bucket == [] then 0 else 1)
    ensures var f := Finish(Run(st, rest, limit));
            && f.fs.result == st.fs.result
            && |f.fs.tempOpens| + f.writes == |st.fs.tempOpens| + st.writes
    decreases |rest|
  {
    if rest != [] {
      var l := rest[0];
      var st' := Step(st, l, limit);
      if IsDataLine(l) {
        var b := Accumulate(st.bucket, l.first, l.values);
        assert l.first in KeySet(b);
        assert st.fs.tempOpens != [] && true !in st.fs.tempOpens[1..];
      }
      RunLosesEverything(st', rest[1..], limit);
    } else if st.bucket != [] {
      assert true !in st.fs.tempOpens[1..];
    }
  }

  /** When the temporary file never opens, every flush is silently dropped:
      the run ends with no result file, although a write is counted for every
      flush, and there is at least one exactly when some row passed the date
      test. */
  lemma UnwritableTempLosesData(files: seq<Option<seq<Line>>>, limit: int, fs: FileSystem)
    requires true !in fs.tempOpens && |fs.tempOpens| >= DataCount(ReadFiles(files))
    ensures AggregateCsvFiles(files, limit, Init(fs)).fs.result.None?
    ensures var r := AggregateCsvFiles(files, limit, Init(fs));
            |r.fs.tempOpens| == |fs.tempOpens| - r.writes
    ensures var w := AggregateCsvFiles(files, limit, Init(fs)).writes;
            w > 0 <==> DateSet(ReadFiles(files)) != {}
  {
    RunLosesEverything(Reducer([], Init(fs), 0), ReadFiles(files), limit);
    WriteCount(files, limit, Init(fs));
  }

  /** One failed open in the middle of a run: with limit 1, two dates, and the
      first open failing, the first date's sums are lost. The run still counts
      two writes and leaves a well-formed result file that lacks that date.
      This is one example, not a general law: a lost date that occurs again
      later in the stream does get a row, with a sum short of the lost rows. */
  lemma OneFailedOpenLosesBucket()
    ensures var lines := [Record("2020-01-01", Triple(1.0, 0.0, 0.0)),
                          Record("2020-01-02", Triple(2.0, 0.0, 0.0))];
            var r := AggregateCsvFiles([Some(lines)], 1, FileSystem(None, [false]));
            && r.writes == 2
            && r.fs.result == Some([Header, Record("2020-01-02", Triple(2.0, 0.0, 0.0))])
            && r.fs.result != Expected(lines)
  {
    var l1 := Record("2020-01-01", Triple(1.0, 0.0, 0.0));
    var l2 := Record("2020-01-02", Triple(2.0, 0.0, 0.0));
    var lines := [l1, l2];
    assert ReadFiles([Some(lines)]) == lines by {
      assert [Some(lines)][1..] == [];
      assert lines + [] == lines;
    }
    assert IsDatePrefix(l1.first) && IsDatePrefix(l2.first);
    assert l1.first != l2.first by {
      assert l1.first[9] != l2.first[9];
    }
    var e2 := Entry(l2.first, Add(Zero, l2.values));
    var st0 := Reducer([], FileSystem(None, [false]), 0);
    var st1 := Step(st0, l1, 1);
    assert st1 == Reducer([], FileSystem(None, []), 1);
    var st2 := Step(st1, l2, 1);
    assert st2 == Reducer([], FileSystem(Some(Merge(None, [e2])), []), 2);
    assert Run(st0, lines, 1) == Run(st1, [l2], 1) by {
      assert lines[1..] == [l2];
    }
    assert Run(st1, [l2], 1) == st2 by {
      assert [l2][1..] == [];
    }
    assert Merge(None, [e2]) == [Header, Record(l2.first, l2.values)];
    TallyMeaning(lines);
    assert l1.first in DateSet(lines) by {
      assert IsDataLine(lines[0]);
    }
    var t := Tally(lines);
    assert l1.first in KeySet(t);
    KeySetIndex(t, l1.first);
    FileOfRows(t);
  }
}

=== FILE: buckets.dfy ===
/** The in-memory bucket of the aggregation: a PHP array keyed by date whose
    values are the running column sums. PHP arrays remember the order in which
    keys were first inserted, so the bucket is an ordered list of entries with
    distinct dates; `ToMap` forgets the order. */
module Buckets {

  import opened Dates
  import opened Rows

  datatype Entry = Entry(date: string, sums: Triple)

  type Bucket = seq<Entry>

  /** The keys of the array. */
  function KeySet(b: Bucket): set<string>
    decreases |b|
  {
    if b == [] then {} else {b[0].date} + KeySet(b[1..])
  }

  /** A date is a key exactly when some entry carries it. */
  lemma {:induction false} KeySetIndex(b: Bucket, d: string)
    ensures d in KeySet(b) <==> exists i :: 0 <= i < |b| && b[i].date == d
    decreases |b|
  {
    if b != [] {
      KeySetIndex(b[1..], d);
      if d in KeySet(b[1..]) {
        var i :| 0 <= i < |b[1..]| && b[1..][i].date == d;
        assert b[i + 1] == b[1..][i];
      }
      if exists i :: 0 <= i < |b| && b[i].date == d {
        var i :| 0 <= i < |b| && b[i].date == d;
        if i > 0 {
          assert b[1..][i - 1] == b[i];
        }
      }
    }
  }

  /** No date occurs twice, as for the keys of any PHP array. */
  predicate Unique(b: Bucket)
    decreases |b|
  {
    b == [] || (b[0].date !in KeySet(b[1..]) && Unique(b[1..]))
  }

  /** Every key passes the date test: the reducer inserts no other key. */
  predicate AllDates(b: Bucket)
  {
    forall d :: d in KeySet(b) ==> IsDatePrefix(d)
  }

  /** The sums stored under `d`, or zero when `d` is not a key. */
  function Get(b: Bucket, d: string): Triple
    decreases |b|
  {
    if b == [] then Zero
    else if b[0].date == d then b[0].sums
    else Get(b[1..], d)
  }

  /** The unordered view of the array. */
  function ToMap(b: Bucket): map<string, Triple>
  {
    map d | d in KeySet(b) :: Get(b, d)
  }

  lemma {:induction false} UniquePairwise(b: Bucket)
    ensures Unique(b) <==> forall i, j :: 0 <= i < j < |b| ==> b[i].date != b[j].date
    decreases |b|
  {
    if b != [] {
      UniquePairwise(b[1..]);
      if Unique(b) {
        forall i, j | 0 <= i < j < |b| ensures b[i].date != b[j].date {
          assert b[j] == b[1..][j - 1];
          KeySetIndex(b[1..], b[j].date);
          if i > 0 {
            assert b[i] == b[1..][i - 1];
          }
        }
      }
      if forall i, j :: 0 <= i < j < |b| ==> b[i].date != b[j].date {
        forall i, j | 0 <= i < j < |b[1..]| ensures b[1..][i].date != b[1..][j].date {
          assert b[1..][i] == b[i + 1] && b[1..][j] == b[j + 1];
        }
        KeySetIndex(b[1..], b[0].date);
      }
    }
  }

  /** In an array with distinct keys, each entry is what a lookup of its date
      returns. */
  lemma {:induction false} GetEntry(b: Bucket, i: int)
    requires Unique(b) && 0 <= i < |b|
    ensures Get(b, b[i].date) == b[i].sums
    decreases |b|
  {
    if i > 0 {
      assert b[i] == b[1..][i - 1];
      KeySetIndex(b[1..], b[i].date);
      GetEntry(b[1..], i - 1);
    }
  }

  /** With distinct keys, the length of the list is the number of keys, so
      `|b|` is PHP's `count()` of the array. */
  lemma {:induction false} UniqueCount(b: Bucket)
    requires Unique(b)
    ensures |KeySet(b)| == |b|
    decreases |b|
  {
    if b != [] {
      UniqueCount(b[1..]);
    }
  }

  lemma {:induction false} KeySetAppend(x: Bucket, y: Bucket)
    ensures KeySet(x + y) == KeySet(x) + KeySet(y)
    decreases |x|
  {
    if x == [] {
      assert x + y == y;
    } else {
      assert (x + y)[0] == x[0] && (x + y)[1..] == x[1..] + y;
      KeySetAppend(x[1..], y);
    }
  }

  lemma {:induction false} GetAppend(x: Bucket, y: Bucket, d: string)
    ensures Get(x + y, d) == if d in KeySet(x) then Get(x, d) else Get(y, d)
    decreases |x|
  {
    if x == [] {
      assert x + y == y;
    } else {
      assert (x + y)[0] == x[0] && (x + y)[1..] == x[1..] + y;
      GetAppend(x[1..], y, d);
    }
  }

  lemma {:induction false} UniqueAppend(x: Bucket, y: Bucket)
    ensures Unique(x + y) <==> Unique(x) && Unique(y) && KeySet(x) !! KeySet(y)
    decreases |x|
  {
    if x == [] {
      assert x + y == y;
    } else {
      assert (x + y)[0] == x[0] && (x + y)[1..] == x[1..] + y;
      UniqueAppend(x[1..], y);
      KeySetAppend(x[1..], y);
    }
  }

  /** One matching row added into the array: the row's date gets the row's
      values added to its sums (starting from zero when the date is new), no
      other date changes, an existing date keeps its place and a new date goes
      to the end. */
  function Accumulate(b: Bucket, d: string, v: Triple): (r: Bucket)
    ensures KeySet(r) == KeySet(b) + {d}
    ensures Get(r, d) == Add(Get(b, d), v)
    ensures forall e :: e != d ==> Get(r, e) == Get(b, e)
    ensures Unique(b) ==> Unique(r)
    decreases |b|
  {
    if b == [] then [Entry(d, Add(Zero, v))]
    else if b[0].date == d then [Entry(d, Add(b[0].sums, v))] + b[1..]
    else [b[0]] + Accumulate(b[1..], d, v)
  }

  /** Existing dates keep their positions; a new date is appended. */
  lemma {:induction false} AccumulateOrder(b: Bucket, d: string, v: Triple)
    ensures |Accumulate(b, d, v)| == if d in KeySet(b) then |b| else |b| + 1
    ensures d !in KeySet(b) ==> Accumulate(b, d, v) == b + [Entry(d, v)]
    ensures forall i :: 0 <= i < |b| ==> Accumulate(b, d, v)[i].date == b[i].date
    decreases |b|
  {
    if b != [] && b[0].date != d {
      AccumulateOrder(b[1..], d, v);
      var r := Accumulate(b, d, v);
      forall i | 0 <= i < |b| ensures r[i].date == b[i].date {
        if i > 0 {
          assert r[i] == Accumulate(b[1..], d, v)[i - 1];
        }
      }
    }
  }

  /** Adding into the first part of a split array when the date lives there. */
  lemma {:induction false} AccumulateAppendLeft(x: Bucket, y: Bucket, d: string, v: Triple)
    requires d in KeySet(x)
    ensures Accumulate(x + y, d, v) == Accumulate(x, d, v) + y
    decreases |x|
  {
    var x0 := x[0];
    assert (x + y)[0] == x0 && (x + y)[1..] == x[1..] + y;
    if x0.date == d {
      calc {
        Accumulate(x + y, d, v);
        [Entry(d, Add(x0.sums, v))] + (x[1..] + y);
        ([Entry(d, Add(x0.sums, v))] + x[1..]) + y;
      }
    } else {
      AccumulateAppendLeft(x[1..], y, d, v);
      calc {
        Accumulate(x + y, d, v);
        [x0] + Accumulate(x[1..] + y, d, v);
        [x0] + (Accumulate(x[1..], d, v) + y);
        ([x0] + Accumulate(x[1..], d, v)) + y;
      }
    }
  }

  /** Adding a date past a first entry that does not carry it. */
  lemma AccumulateCons(e: Entry, rest: Bucket, d: string, v: Triple)
    requires e.date != d
    ensures Accumulate([e] + rest, d, v) == [e] + Accumulate(rest, d, v)
  {
    assert ([e] + rest)[0] == e && ([e] + rest)[1..] == rest;
  }

  /** Adding into the second part of a split array when the first part does
      not hold the date. */
  lemma {:induction false} AccumulateAppendRight(x: Bucket, y: Bucket, d: string, v: Triple)
    requires d !in KeySet(x)
    ensures Accumulate(x + y, d, v) == x + Accumulate(y, d, v)
    decreases |x|
  {
    if x == [] {
      assert x + y == y;
    } else {
      var x0 := x[0];
      var t := x[1..];
      var ay := Accumulate(y, d, v);
      calc {
        Accumulate(x + y, d, v);
        { assert x + y == [x0] + (t + y); }
        Accumulate([x0] + (t + y), d, v);
        { AccumulateCons(x0, t + y, d, v); }
        [x0] + Accumulate(t + y, d, v);
        { AccumulateAppendRight(t, y, d, v); }
        [x0] + (t + ay);
        { assert [x0] + t == x; }
        x + ay;
      }
    }
  }

  /** The entries whose date is not in `ks`, in their original order: the
      array after `unset` of each date in `ks`. */
  function Without(b: Bucket, ks: set<string>): (r: Bucket)
    ensures KeySet(r) == KeySet(b) - ks
    ensures forall e :: e !in ks ==> Get(r, e) == Get(b, e)
    ensures Unique(b) ==> Unique(r)
    decreases |b|
  {
    if b == [] then []
    else if b[0].date in ks then Without(b[1..], ks)
    else [b[0]] + Without(b[1..], ks)
  }

  lemma {:induction false} WithoutNothing(b: Bucket)
    ensures Without(b, {}) == b
    decreases |b|
  {
    if b != [] {
      WithoutNothing(b[1..]);
    }
  }

  lemma {:induction false} WithoutWithout(b: Bucket, k1: set<string>, k2: set<string>)
    ensures Without(Without(b, k1), k2) == Without(b, k1 + k2)
    decreases |b|
  {
    if b != [] {
      WithoutWithout(b[1..], k1, k2);
    }
  }

  /** Removing a date the array does not hold changes nothing. */
  lemma {:induction false} WithoutAbsent(b: Bucket, ks: set<string>, d: string)
    requires d !in KeySet(b)
    ensures Without(b, ks + {d}) == Without(b, ks)
    decreases |b|
  {
    if b != [] {
      WithoutAbsent(b[1..], ks, d);
    }
  }

  lemma {:induction false} WithoutAccumulate(b: Bucket, ks: set<string>, d: string, v: Triple)
    ensures d in ks ==> Without(Accumulate(b, d, v), ks) == Without(b, ks)
    ensures d !in ks ==> Without(Accumulate(b, d, v), ks) == Accumulate(Without(b, ks), d, v)
    decreases |b|
  {
    if b != [] {
      WithoutAccumulate(b[1..], ks, d, v);
      if b[0].date == d {
        assert Accumulate(b, d, v)[1..] == b[1..];
      }
    }
  }

  /** An old row, with the bucket added in when it holds that date. */
  function AddedRow(e: Entry, b: Bucket): Entry
  {
    Entry(e.date, if e.date in KeySet(b) then Add(e.sums, Get(b, e.date)) else e.sums)
  }

  /** The old rows of a result file, each with the bucket's sums added when the
      bucket holds its date. */
  function AddInto(a: Bucket, b: Bucket): (r: Bucket)
    ensures |r| == |a|
    ensures forall i :: 0 <= i < |a| ==> r[i].date == a[i].date
    ensures KeySet(r) == KeySet(a)
    ensures forall e :: Get(r, e) ==
              if e in KeySet(a) && e in KeySet(b) then Add(Get(a, e), Get(b, e)) else Get(a, e)
    ensures Unique(a) ==> Unique(r)
    decreases |a|
  {
    if a == [] then []
    else
      var tail := AddInto(a[1..], b);
      var rows := [AddedRow(a[0], b)] + tail;
      assert forall i :: 1 <= i < |a| ==> rows[i].date == a[i].date by {
        forall i | 1 <= i < |a| ensures rows[i].date == a[i].date {
          assert rows[i] == tail[i - 1] && a[1..][i - 1] == a[i];
        }
      }
      rows
  }

  /** Only the bucket's values at the old rows' dates matter. */
  lemma {:induction false} AddIntoIgnoresOthers(a: Bucket, b: Bucket, ks: set<string>)
    requires KeySet(a) !! ks
    ensures AddInto(a, Without(b, ks)) == AddInto(a, b)
    decreases |a|
  {
    if a != [] {
      AddIntoIgnoresOthers(a[1..], b, ks);
    }
  }

  lemma {:induction false} AddIntoEmpty(a: Bucket)
    ensures AddInto(a, []) == a
    decreases |a|
  {
    if a != [] {
      AddIntoEmpty(a[1..]);
    }
  }

  /** A lookup of a date that is not a key yields zero. */
  lemma {:induction false} GetAbsent(b: Bucket, d: string)
    requires d !in KeySet(b)
    ensures Get(b, d) == Zero
    decreases |b|
  {
    if b != [] {
      GetAbsent(b[1..], d);
    }
  }

  /** The old rows ignore bucket dates they do not hold. */
  lemma {:induction false} AddIntoAccumulateOutside(a: Bucket, b: Bucket, d: string, v: Triple)
    requires d !in KeySet(a)
    ensures AddInto(a, Accumulate(b, d, v)) == AddInto(a, b)
    decreases |a|
  {
    if a != [] {
      AddIntoAccumulateOutside(a[1..], b, d, v);
      var acc := Accumulate(b, d, v);
      assert (a[0].date in KeySet(acc)) == (a[0].date in KeySet(b));
      assert Get(acc, a[0].date) == Get(b, a[0].date);
    }
  }

  lemma AddIntoCons(a: Bucket, b: Bucket)
    requires a != []
    ensures AddInto(a, b) == [AddedRow(a[0], b)] + AddInto(a[1..], b)
  {
  }

  /** Adding a date into an array that starts with it. */
  lemma AccumulateHead(e: Entry, rest: Bucket, v: Triple)
    ensures Accumulate([e] + rest, e.date, v) == [Entry(e.date, Add(e.sums, v))] + rest
  {
    assert ([e] + rest)[0] == e && ([e] + rest)[1..] == rest;
  }

  /** A row added to the bucket under a date the old rows hold ends up in that
      old row. */
  lemma {:induction false} AddIntoAccumulateInside(a: Bucket, b: Bucket, d: string, v: Triple)
    requires Unique(a) && d in KeySet(a)
    ensures AddInto(a, Accumulate(b, d, v)) == Accumulate(AddInto(a, b), d, v)
    decreases |a|
  {
    var acc := Accumulate(b, d, v);
    var a0 := a[0];
    var rest := a[1..];
    var tail := AddInto(rest, b);
    if a0.date == d {
      assert d !in KeySet(rest);
      assert AddedRow(a0, acc) == Entry(d, Add(AddedRow(a0, b).sums, v)) by {
        if d !in KeySet(b) {
          GetAbsent(b, d);
        }
      }
      calc {
        AddInto(a, acc);
        { AddIntoCons(a, acc); }
        [AddedRow(a0, acc)] + AddInto(rest, acc);
        { AddIntoAccumulateOutside(rest, b, d, v); }
        [Entry(d, Add(AddedRow(a0, b).sums, v))] + tail;
        { AccumulateHead(AddedRow(a0, b), tail, v); }
        Accumulate([AddedRow(a0, b)] + tail, d, v);
        { AddIntoCons(a, b); }
        Accumulate(AddInto(a, b), d, v);
      }
    } else {
      assert Unique(rest) && d in KeySet(rest);
      assert AddedRow(a0, acc) == AddedRow(a0, b);
      calc {
        AddInto(a, acc);
        { AddIntoCons(a, acc); }
        [AddedRow(a0, b)] + AddInto(rest, acc);
        { AddIntoAccumulateInside(rest, b, d, v); }
        [AddedRow(a0, b)] + Accumulate(tail, d, v);
        { AccumulateCons(AddedRow(a0, b), tail, d, v); }
        Accumulate([AddedRow(a0, b)] + tail, d, v);
        { AddIntoCons(a, b); }
        Accumulate(AddInto(a, b), d, v);
      }
    }
  }

  /** The merge of a bucket into the rows of a result file, on the level of
      entries: the old dates in their order with the bucket added in, then the
      bucket's other dates in the bucket's order. */
  function Combine(a: Bucket, b: Bucket): (r: Bucket)
    ensures KeySet(r) == KeySet(a) + KeySet(b)
    ensures forall e :: Get(r, e) ==
              if e in KeySet(a) && e in KeySet(b) then Add(Get(a, e), Get(b, e))
              else if e in KeySet(a) then Get(a, e)
              else Get(b, e)
    ensures Unique(a) && Unique(b) ==> Unique(r)
    ensures |r| >= |a| && forall i :: 0 <= i < |a| ==> r[i].date == a[i].date
  {
    var kept := AddInto(a, b);
    var left := Without(b, KeySet(a));
    KeySetAppend(kept, left);
    UniqueAppend(kept, left);
    forall e ensures Get(kept + left, e) ==
        if e in KeySet(a) && e in KeySet(b) then Add(Get(a, e), Get(b, e))
        else if e in KeySet(a) then Get(a, e)
        else Get(b, e)
    {
      GetAppend(kept, left, e);
    }
    kept + left
  }

  lemma CombineWithEmpty(a: Bucket)
    ensures Combine(a, []) == a
    ensures Combine([], a) == a
  {
    AddIntoEmpty(a);
    WithoutNothing(a);
  }

  /** Merging after adding a row is adding the row after merging: the step
      that lets flushes happen at any point of the stream. */
  lemma CombineAccumulate(a: Bucket, b: Bucket, d: string, v: Triple)
    requires Unique(a)
    ensures Combine(a, Accumulate(b, d, v)) == Accumulate(Combine(a, b), d, v)
  {
    if d in KeySet(a) {
      AddIntoAccumulateInside(a, b, d, v);
    } else {
      AddIntoAccumulateOutside(a, b, d, v);
    }
    WithoutAccumulate(b, KeySet(a), d, v);
    if d in KeySet(a) {
      AccumulateAppendLeft(AddInto(a, b), Without(b, KeySet(a)), d, v);
    } else {
      AccumulateAppendRight(AddInto(a, b), Without(b, KeySet(a)), d, v);
    }
  }

  /** Date-wise sum of two maps: a date in both gets the column-wise sum, a date
      in one of them keeps its value. */
  function MapSum(m1: map<string, Triple>, m2: map<string, Triple>): map<string, Triple>
  {
    map d | d in m1.Keys + m2.Keys ::
      if d in m1 && d in m2 then Add(m1[d], m2[d])
      else if d in m1 then m1[d]
      else m2[d]
  }

  lemma CombineIsMapSum(a: Bucket, b: Bucket)
    ensures ToMap(Combine(a, b)) == MapSum(ToMap(a), ToMap(b))
  {
    var r := Combine(a, b);
    var m := MapSum(ToMap(a), ToMap(b));
    assert ToMap(r).Keys == m.Keys;
    forall e | e in m ensures ToMap(r)[e] == m[e] {
      assert ToMap(r)[e] == Get(r, e);
    }
  }

}

=== FILE: dates.dfy ===
/** The date test of the aggregation command: a CSV field counts as a date when
    it starts with `YYYY-MM-DD`, i.e. the PCRE pattern `/^\d{4}-\d{2}-\d{2}/i`
    finds a match at the start of the field. */
module Dates {

  /** `\d` in a PCRE pattern without the `u` flag: one ASCII digit. */
  predicate IsDigit(c: char)
  {
    '0' <= c <= '9'
  }

  /** The test the command applies to the first field of every row. Only the
      first ten characters are inspected; whatever follows them is ignored by
      the test. `DatePrefixIsPattern` shows that it is the meaning of the
      regular expression. */
  predicate IsDatePrefix(s: string)
  {
    && |s| >= 10
    && IsDigit(s[0]) && IsDigit(s[1]) && IsDigit(s[2]) && IsDigit(s[3])
    && s[4] == '-'
    && IsDigit(s[5]) && IsDigit(s[6])
    && s[7] == '-'
    && IsDigit(s[8]) && IsDigit(s[9])
  }

  /** One position of an anchored pattern: a digit class or a literal. The `i`
      flag of the pattern makes no difference, since neither digits nor `-`
      have a case. */
  datatype CharClass = Digit | Literal(c: char)

  predicate ClassMatches(k: CharClass, c: char)
  {
    match k
    case Digit => IsDigit(c)
    case Literal(l) => c == l
  }

  /** `\d{4}-\d{2}-\d{2}` with its counted repetitions written out. */
  const DatePattern: seq<CharClass> :=
    [Digit, Digit, Digit, Digit, Literal('-'), Digit, Digit, Literal('-'), Digit, Digit]

  /** An anchored match (`^` and no `$`): the pattern matches a prefix of `s`,
      one character per position, left to right. */
  predicate MatchesAtStart(p: seq<CharClass>, s: string)
    decreases |p|
  {
    p == [] || (s != [] && ClassMatches(p[0], s[0]) && MatchesAtStart(p[1..], s[1..]))
  }

  /** A left-to-right anchored match is the same as matching every pattern
      position against the character at the same index. */
  lemma {:induction false} MatchesAtStartPointwise(p: seq<CharClass>, s: string)
    ensures MatchesAtStart(p, s) <==>
              |s| >= |p| && forall i :: 0 <= i < |p| ==> ClassMatches(p[i], s[i])
    decreases |p|
  {
    if p != [] && s != [] {
      MatchesAtStartPointwise(p[1..], s[1..]);
      if MatchesAtStart(p, s) {
        forall i | 0 <= i < |p|
          ensures ClassMatches(p[i], s[i])
        {
          if i > 0 {
            assert p[1..][i - 1] == p[i] && s[1..][i - 1] == s[i];
          }
        }
      }
      if |s| >= |p| && forall i :: 0 <= i < |p| ==> ClassMatches(p[i], s[i]) {
        forall i | 0 <= i < |p| - 1
          ensures ClassMatches(p[1..][i], s[1..][i])
        {
          assert p[1..][i] == p[i + 1] && s[1..][i] == s[i + 1];
        }
      }
    }
  }

  /** Position by position, the date pattern asks for a digit everywhere but
      at the two dashes. */
  lemma DatePatternPointwise(s: string)
    requires |s| >= 10
    ensures (forall i :: 0 <= i < |DatePattern| ==> ClassMatches(DatePattern[i], s[i])) <==>
              && IsDigit(s[0]) && IsDigit(s[1]) && IsDigit(s[2]) && IsDigit(s[3])
              && s[4] == '-'
              && IsDigit(s[5]) && IsDigit(s[6])
              && s[7] == '-'
              && IsDigit(s[8]) && IsDigit(s[9])
  {
    assert forall i :: 0 <= i < |DatePattern| ==>
             (ClassMatches(DatePattern[i], s[i]) <==> if i == 4 || i == 7 then s[i] == '-' else IsDigit(s[i]));
  }

  /** The date pattern matches exactly when the ten leading characters are,
      position by position, four digits, `-`, two digits, `-`, two digits. */
  lemma DatePatternByPosition(s: string)
    ensures MatchesAtStart(DatePattern, s) <==>
              && |s| >= 10
              && IsDigit(s[0]) && IsDigit(s[1]) && IsDigit(s[2]) && IsDigit(s[3])
              && s[4] == '-'
              && IsDigit(s[5]) && IsDigit(s[6])
              && s[7] == '-'
              && IsDigit(s[8]) && IsDigit(s[9])
  {
    MatchesAtStartPointwise(DatePattern, s);
    if |s| >= 10 {
      DatePatternPointwise(s);
    }
  }

  /** The hand-written date test is exactly the regular expression's meaning. */
  lemma DatePrefixIsPattern(s: string)
    ensures IsDatePrefix(s) <==> MatchesAtStart(DatePattern, s)
  {
    DatePatternByPosition(s);
  }

  /** An anchored match without `$` ignores what follows the matched prefix. */
  lemma {:induction false} MatchesAtStartIgnoresSuffix(p: seq<CharClass>, s: string, t: string)
    ensures MatchesAtStart(p, s) ==> MatchesAtStart(p, s + t)
    ensures |s| >= |p| ==> (MatchesAtStart(p, s) <==> MatchesAtStart(p, s[..|p|]))
    decreases |p|
  {
    if p != [] && s != [] {
      assert (s + t)[1..] == s[1..] + t;
      MatchesAtStartIgnoresSuffix(p[1..], s[1..], t);
      if |s| >= |p| {
        assert s[..|p|][1..] == s[1..][..|p| - 1];
      }
    }
  }

  /** The date test looks at the first ten characters only: any text after
      them (a time of day, say) does not change whether a field passes. The
      key the rows are grouped under is still the whole field. */
  lemma DatePrefixIgnoresRest(s: string, t: string)
    ensures IsDatePrefix(s) ==> IsDatePrefix(s + t)
    ensures IsDatePrefix(s) <==> |s| >= 10 && IsDatePrefix(s[..10])
  {
    DatePrefixIsPattern(s);
    DatePrefixIsPattern(s + t);
    MatchesAtStartIgnoresSuffix(DatePattern, s, t);
    if |s| >= 10 {
      DatePrefixIsPattern(s[..10]);
    }
  }

}

=== FILE: merge.dfy ===
/** The merge of a bucket into the result file (`saveAggregatedData`): a new
    file is written with the header, then the old data rows in their order with
    the bucket's sums added to matching dates, then the bucket's remaining
    dates; the new file then replaces the old one in one step. */
module ResultMerger {

  import opened Wrappers
  import opened Dates
  import opened Rows
  import opened Buckets

  /** The header line `date; A; B; C`. Its first field fails the date test, so
      its other cells are never read back; they are modelled as zeros. */
  const Header: Line := Record("date", Zero)

  /** The rows `date; A; B; C` written for a list of entries, in its order. */
  function AsLines(b: Bucket): seq<Line>
    decreases |b|
  {
    if b == [] then [] else [Record(b[0].date, b[0].sums)] + AsLines(b[1..])
  }

  /** A result file holding the given entries. */
  function FileOf(b: Bucket): seq<Line>
  {
    [Header] + AsLines(b)
  }

  /** The rows of a file that pass the date test, as entries, in file order. */
  function DataEntries(lines: seq<Line>): Bucket
    decreases |lines|
  {
    if lines == [] then []
    else if IsDataLine(lines[0]) then
      [Entry(lines[0].first, lines[0].values)] + DataEntries(lines[1..])
    else DataEntries(lines[1..])
  }

  /** The loop over the old result file: every row that is not a date row is
      dropped (the old header, blank lines, the end-of-file `false`); a date
      row the bucket holds gets the bucket's sums added and its date is
      removed from the bucket; any other date row is copied. Returns the rows
      written and what is left of the bucket: one row per old date row, and
      the bucket without the old file's dates. */
  function MergeRows(lines: seq<Line>, b: Bucket): (r: (seq<Line>, Bucket))
    ensures |r.0| == |DataEntries(lines)|
    ensures forall i :: 0 <= i < |r.0| ==> IsDataLine(r.0[i])
    ensures KeySet(r.1) == KeySet(b) - KeySet(DataEntries(lines))
    ensures Unique(b) ==> Unique(r.1)
    decreases |lines|
  {
    if lines == [] then ([], b)
    else if !IsDataLine(lines[0]) then MergeRows(lines[1..], b)
    else
      var d := lines[0].first;
      if d in KeySet(b) then
        var rest := MergeRows(lines[1..], Without(b, {d}));
        ([Record(d, Add(lines[0].values, Get(b, d)))] + rest.0, rest.1)
      else
        var rest := MergeRows(lines[1..], b);
        ([lines[0]] + rest.0, rest.1)
  }

  /** The content of the new result file: the header, the old rows (when a
      result file exists) merged with the bucket, then the bucket's dates that
      the old file did not hold. */
  function Merge(prev: Option<seq<Line>>, b: Bucket): (r: seq<Line>)
    ensures |r| >= 1 && r[0] == Header
  {
    var out := if prev.None? then ([], b) else MergeRows(prev.value, b);
    [Header] + out.0 + AsLines(out.1)
  }

  /** What the command can see of the file system: the result file, if it
      exists, and the outcomes of the coming attempts to open the temporary
      file for writing, one per save, in order. An attempt past the end of the
      list succeeds, so `[]` is a file system where every open succeeds. */
  datatype FileSystem = FileSystem(result: Option<seq<Line>>, tempOpens: seq<bool>)

  /** Whether the next attempt to open the temporary file succeeds. */
  predicate NextOpenSucceeds(fs: FileSystem)
  {
    fs.tempOpens == [] || fs.tempOpens[0]
  }

  /** `saveAggregatedData`: every call makes one attempt to open the temporary
      file. When it fails nothing is written and the bucket is lost; otherwise
      the result file is replaced by the merge in one step. The source deletes
      the old result file before it renames the temporary one into place; the
      model does not separate those two steps. */
  function Save(fs: FileSystem, b: Bucket): (r: FileSystem)
    ensures fs.tempOpens != [] ==> r.tempOpens == fs.tempOpens[1..]
    ensures fs.tempOpens == [] ==> r.tempOpens == []
    ensures !NextOpenSucceeds(fs) ==> r.result == fs.result
    ensures NextOpenSucceeds(fs) ==> r.result.Some? && |r.result.value| >= 1 && r.result.value[0] == Header
  {
    var later := if fs.tempOpens == [] then [] else fs.tempOpens[1..];
    if !NextOpenSucceeds(fs) then fs.(tempOpens := later)
    else FileSystem(Some(Merge(fs.result, b)), later)
  }

  lemma {:induction false} AsLinesAppend(x: Bucket, y: Bucket)
    ensures AsLines(x + y) == AsLines(x) + AsLines(y)
    decreases |x|
  {
    if x == [] {
      assert x + y == y;
    } else {
      assert (x + y)[0] == x[0] && (x + y)[1..] == x[1..] + y;
      AsLinesAppend(x[1..], y);
    }
  }

  lemma {:induction false} AsLinesIndex(b: Bucket, i: int)
    requires 0 <= i < |b|
    ensures |AsLines(b)| == |b| && AsLines(b)[i] == Record(b[i].date, b[i].sums)
    decreases |b|
  {
    if i > 0 {
      AsLinesIndex(b[1..], i - 1);
    } else {
      AsLinesLength(b);
    }
  }

  lemma {:induction false} AsLinesLength(b: Bucket)
    ensures |AsLines(b)| == |b|
    decreases |b|
  {
    if b != [] {
      AsLinesLength(b[1..]);
    }
  }

  /** Only date rows are read as entries. */
  lemma {:induction false} DataEntriesAreDates(lines: seq<Line>)
    ensures AllDates(DataEntries(lines))
    decreases |lines|
  {
    if lines != [] {
      DataEntriesAreDates(lines[1..]);
      if IsDataLine(lines[0]) {
        var e := Entry(lines[0].first, lines[0].values);
        assert ([e] + DataEntries(lines[1..]))[1..] == DataEntries(lines[1..]);
      }
    }
  }

  /** A file written from date-keyed entries reads back as the same entries. */
  lemma {:induction false} DataEntriesOfLines(b: Bucket)
    requires AllDates(b)
    ensures DataEntries(AsLines(b)) == b
    decreases |b|
  {
    if b != [] {
      assert AsLines(b)[1..] == AsLines(b[1..]);
      assert b[0].date in KeySet(b);
      DataEntriesOfLines(b[1..]);
    }
  }

  lemma DataEntriesOfFile(b: Bucket)
    requires AllDates(b)
    ensures DataEntries(FileOf(b)) == b
  {
    assert FileOf(b)[1..] == AsLines(b);
    DataEntriesOfLines(b);
  }

  /** On an old file whose date rows are distinct, the loop adds the bucket
      into the old rows and leaves exactly the bucket's dates the old file
      did not hold. */
  lemma {:induction false} MergeRowsAddsInto(lines: seq<Line>, b: Bucket)
    requires Unique(DataEntries(lines))
    ensures var o := DataEntries(lines);
            MergeRows(lines, b) == (AsLines(AddInto(o, b)), Without(b, KeySet(o)))
    decreases |lines|
  {
    if lines == [] {
      WithoutNothing(b);
    } else if !IsDataLine(lines[0]) {
      MergeRowsAddsInto(lines[1..], b);
    } else {
      var d := lines[0].first;
      var v := lines[0].values;
      var o := DataEntries(lines);
      var o' := DataEntries(lines[1..]);
      assert o == [Entry(d, v)] + o';
      assert o[0] == Entry(d, v) && o[1..] == o';
      assert KeySet(o) == {d} + KeySet(o');
      if d in KeySet(b) {
        var rest := MergeRows(lines[1..], Without(b, {d}));
        assert MergeRows(lines, b) == ([Record(d, Add(v, Get(b, d)))] + rest.0, rest.1);
        MergeRowsAddsInto(lines[1..], Without(b, {d}));
        AddIntoIgnoresOthers(o', b, {d});
        WithoutWithout(b, {d}, KeySet(o'));
        var t := AddInto(o', b);
        assert AddInto(o, b) == [Entry(d, Add(v, Get(b, d)))] + t;
        assert ([Entry(d, Add(v, Get(b, d)))] + t)[1..] == t;
      } else {
        var rest := MergeRows(lines[1..], b);
        assert MergeRows(lines, b) == ([lines[0]] + rest.0, rest.1);
        MergeRowsAddsInto(lines[1..], b);
        WithoutAbsent(b, KeySet(o'), d);
        assert KeySet(o') + {d} == KeySet(o);
        var t := AddInto(o', b);
        assert AddInto(o, b) == [Entry(d, v)] + t;
        assert ([Entry(d, v)] + t)[1..] == t;
      }
    }
  }

  /** With an empty bucket the loop copies the date rows and nothing is left. */
  lemma {:induction false} MergeRowsEmptyBucket(lines: seq<Line>)
    ensures MergeRows(lines, []) == (AsLines(DataEntries(lines)), [])
    decreases |lines|
  {
    if lines != [] {
      MergeRowsEmptyBucket(lines[1..]);
      if IsDataLine(lines[0]) {
        var e := Entry(lines[0].first, lines[0].values);
        assert ([e] + DataEntries(lines[1..]))[1..] == DataEntries(lines[1..]);
      }
    }
  }

  /** The merge writes the file of the entry-level merge `Combine`: with no
      old file, the bucket alone. */
  lemma MergeIsCombine(prev: Option<seq<Line>>, b: Bucket)
    requires prev.Some? ==> Unique(DataEntries(prev.value))
    ensures prev.None? ==> Merge(prev, b) == FileOf(b)
    ensures prev.Some? ==> Merge(prev, b) == FileOf(Combine(DataEntries(prev.value), b))
  {
    if prev.Some? {
      var o := DataEntries(prev.value);
      MergeRowsAddsInto(prev.value, b);
      AsLinesAppend(AddInto(o, b), Without(b, KeySet(o)));
    }
  }

  /** Additivity: in the new file a date of both the old file and the bucket
      carries the column-wise sum, a date of only one of them carries its
      value from there, and no other date appears. */
  lemma MergeAdditive(lines: seq<Line>, b: Bucket)
    requires Unique(DataEntries(lines)) && AllDates(b)
    ensures ToMap(DataEntries(Merge(Some(lines), b))) == MapSum(ToMap(DataEntries(lines)), ToMap(b))
  {
    var o := DataEntries(lines);
    MergeIsCombine(Some(lines), b);
    DataEntriesAreDates(lines);
    DataEntriesOfFile(Combine(o, b));
    CombineIsMapSum(o, b);
  }

  /** Shape: one header, then only date rows, no date twice. */
  lemma MergeShape(prev: Option<seq<Line>>, b: Bucket)
    requires prev.Some? ==> Unique(DataEntries(prev.value))
    requires Unique(b) && AllDates(b)
    ensures var r := Merge(prev, b);
            && r[0] == Header
            && (forall i :: 1 <= i < |r| ==> IsDataLine(r[i]))
            && (forall i, j :: 1 <= i < j < |r| ==> r[i].first != r[j].first)
  {
    MergeIsCombine(prev, b);
    var c := if prev.None? then b else Combine(DataEntries(prev.value), b);
    if prev.Some? {
      DataEntriesAreDates(prev.value);
    }
    var r := Merge(prev, b);
    assert r == FileOf(c);
    assert Unique(c) && AllDates(c);
    UniquePairwise(c);
    AsLinesLength(c);
    forall i | 1 <= i < |r| ensures r[i] == Record(c[i - 1].date, c[i - 1].sums) {
      AsLinesIndex(c, i - 1);
    }
    forall i | 0 <= i < |c| ensures IsDatePrefix(c[i].date) {
      KeySetIndex(c, c[i].date);
    }
  }

  /** Order: the old date rows come first and in their old order; the dates
      only the bucket held follow in the bucket's order. */
  lemma MergeOrder(lines: seq<Line>, b: Bucket)
    requires Unique(DataEntries(lines))
    ensures var o := DataEntries(lines);
            var r := Merge(Some(lines), b);
            && |r| == 1 + |o| + |Without(b, KeySet(o))|
            && (forall i :: 1 <= i <= |o| ==> r[i].Record? && r[i].first == o[i - 1].date)
            && r[1 + |o|..] == AsLines(Without(b, KeySet(o)))
  {
    var o := DataEntries(lines);
    var kept := AddInto(o, b);
    var left := Without(b, KeySet(o));
    var x := AsLines(kept);
    var y := AsLines(left);
    var r := Merge(Some(lines), b);
    assert r == [Header] + x + y by {
      MergeRowsAddsInto(lines, b);
    }
    AsLinesLength(kept);
    AsLinesLength(left);
    assert r[1 + |o|..] == y;
    forall i | 1 <= i <= |o| ensures r[i].Record? && r[i].first == o[i - 1].date {
      assert r[i] == x[i - 1];
      AsLinesIndex(kept, i - 1);
    }
  }

  /** Merging an empty bucket rewrites the old date rows unchanged, under a
      fresh header. */
  lemma MergeEmptyBucket(lines: seq<Line>)
    ensures Merge(Some(lines), []) == FileOf(DataEntries(lines))
  {
    MergeRowsEmptyBucket(lines);
  }

  /** The scenario of the repository's unit test: two dates merged into an
      absent result file, then one of them merged again. */
  lemma SaveScenario()
    ensures
      var first := [Entry("1993-03-21", Triple(9.0, 21.0, 1.0)),
                    Entry("1995-03-21", Triple(9.0, 21.0, 1.0))];
      var second := [Entry("1995-03-21", Triple(0.0, 10.0, 2.0))];
      var fs := Save(Save(FileSystem(None, []), first), second);
      fs.result == Some([Header,
                         Record("1993-03-21", Triple(9.0, 21.0, 1.0)),
                         Record("1995-03-21", Triple(9.0, 31.0, 3.0))])
  {
    var first := [Entry("1993-03-21", Triple(9.0, 21.0, 1.0)),
                  Entry("1995-03-21", Triple(9.0, 21.0, 1.0))];
    var second := [Entry("1995-03-21", Triple(0.0, 10.0, 2.0))];
    var file1 := Merge(None, first);
    assert file1 == [Header, Record("1993-03-21", Triple(9.0, 21.0, 1.0)),
                     Record("1995-03-21", Triple(9.0, 21.0, 1.0))];
    assert IsDatePrefix("1993-03-21") && IsDatePrefix("1995-03-21") && !IsDatePrefix("date");
    assert "1993-03-21" != "1995-03-21" by {
      assert "1993-03-21"[3] != "1995-03-21"[3];
    }
    assert KeySet(second) == {"1995-03-21"};
    assert Without(second, {"1995-03-21"}) == [];
    assert Get(second, "1995-03-21") == Triple(0.0, 10.0, 2.0);
    var row1 := Record("1993-03-21", Triple(9.0, 21.0, 1.0));
    var row2 := Record("1995-03-21", Triple(9.0, 21.0, 1.0));
    var merged := Record("1995-03-21", Triple(9.0, 31.0, 3.0));
    assert file1 == [Header, row1, row2];
    assert IsDataLine(row2) && IsDataLine(row1) && !IsDataLine(Header);
    assert MergeRows([], []) == ([], []);
    assert [row2][1..] == [] && [row1, row2][1..] == [row2] && [Header, row1, row2][1..] == [row1, row2];
    assert "1995-03-21" in KeySet(second) && "1993-03-21" !in KeySet(second);
    assert Add(row2.values, Get(second, "1995-03-21")) == merged.values;
    var m2 := MergeRows([row2], second);
    assert m2.0 == [Record("1995-03-21", Add(row2.values, Get(second, "1995-03-21")))];
    assert m2 == ([merged], []);
    var m1 := MergeRows([row1, row2], second);
    assert m1 == ([row1] + m2.0, m2.1);
    assert MergeRows([Header, row1, row2], second) == m1;
    assert [row1] + [merged] == [row1, merged];
    assert Merge(Some(file1), second) == [Header] + [row1, merged] + AsLines([]);
    assert [Header] + [row1, merged] + [] == [Header, row1, merged];
  }

}

=== FILE: rows.dfy ===
/** Rows as the command sees them, and the reader that concatenates the rows
    of several CSV files. */
module Rows {

  import opened Wrappers
  import opened Dates

  /** The three numeric columns A, B, C of a row, or their running sums. Exact
      reals stand in for the source's floats. */
  datatype Triple = Triple(a: real, b: real, c: real)

  const Zero: Triple := Triple(0.0, 0.0, 0.0)

  /** Column-wise sum, as the `+=` on each of the three columns. */
  function Add(x: Triple, y: Triple): Triple
  {
    Triple(x.a + y.a, x.b + y.b, x.c + y.c)
  }

  /** One value produced by reading a CSV file line by line. `NoRecord` is the
      `false` the reader yields at end of file and the `[null]` of a blank
      line; neither has a first field that could pass the date test. A
      `Record` is a date-or-label field followed by three numeric columns. */
  datatype Line = NoRecord | Record(first: string, values: Triple)

  /** A row that the aggregation counts: its first field passes the date test. */
  predicate IsDataLine(l: Line)
  {
    l.Record? && IsDatePrefix(l.first)
  }

  /** The rows of all files, file after file, line after line within a file. A
      file that cannot be opened (`None`) contributes nothing. */
  function ReadFiles(files: seq<Option<seq<Line>>>): (rows: seq<Line>)
    ensures forall l :: l in rows <==>
              exists j :: 0 <= j < |files| && files[j].Some? && l in files[j].value
    decreases |files|
  {
    if files == [] then []
    else
      var tail := ReadFiles(files[1..]);
      assert forall l :: l in tail <==>
               exists j :: 1 <= j < |files| && files[j].Some? && l in files[j].value
      by {
        forall l | l in tail
          ensures exists j :: 1 <= j < |files| && files[j].Some? && l in files[j].value
        {
          var j :| 0 <= j < |files[1..]| && files[1..][j].Some? && l in files[1..][j].value;
          assert files[j + 1] == files[1..][j];
        }
        forall l, j | 1 <= j < |files| && files[j].Some? && l in files[j].value
          ensures l in tail
        {
          assert files[1..][j - 1] == files[j];
        }
      }
      (match files[0] case Some(lines) => lines case None => []) + tail
  }

  /** Reading two lists of files one after the other reads their
      concatenation. */
  lemma {:induction false} ReadFilesAppend(xs: seq<Option<seq<Line>>>, ys: seq<Option<seq<Line>>>)
    ensures ReadFiles(xs + ys) == ReadFiles(xs) + ReadFiles(ys)
    decreases |xs|
  {
    if xs != [] {
      assert (xs + ys)[0] == xs[0] && (xs + ys)[1..] == xs[1..] + ys;
      ReadFilesAppend(xs[1..], ys);
      var head := match xs[0] case Some(lines) => lines case None => [];
      calc {
        ReadFiles(xs + ys);
        head + ReadFiles(xs[1..] + ys);
        head + (ReadFiles(xs[1..]) + ReadFiles(ys));
        (head + ReadFiles(xs[1..])) + ReadFiles(ys);
      }
    } else {
      assert xs + ys == ys;
    }
  }

  /** A file that fails to open is skipped, and an opened file yields its rows
      unchanged and in order. */
  lemma ReadFilesOneFile(xs: seq<Option<seq<Line>>>, f: Option<seq<Line>>, ys: seq<Option<seq<Line>>>)
    ensures ReadFiles(xs + [f] + ys) ==
              ReadFiles(xs) + (match f case Some(lines) => lines case None => []) + ReadFiles(ys)
  {
    ReadFilesAppend(xs + [f], ys);
    ReadFilesAppend(xs, [f]);
    assert ReadFiles([f]) == (match f case Some(lines) => lines case None => []) + ReadFiles([]);
  }

}

=== FILE: wrappers.dfy ===
/** A value that may be absent: a file that could not be opened, a result file
    that does not exist yet. */
module Wrappers {

  datatype Option<+T> = None | Some(value: T)

}
